=== FILE: README.md ===
# Lane racer road logic, in Dafny

This project models the core of a small endless-runner game written in C on
raylib. A car stays at the bottom of an 1280x800 screen while a road made of
strips scrolls down towards it. The car steers left and right and must stay
between the road edges. The model covers these parts of the game:

- **Generation** (`Generator`). A new strip is built from the previous one and
  three random draws: a width in [200, 300], a left/right coin, and a position.
  Near either screen edge the coin is overridden (the left-edge test wins).
- **Road list** (`RoadList`). The game's doubly linked list is a `seq<Road>`.
  Index 0 is the head, the oldest and bottom-most strip. The list is
  bootstrapped with a 400-pixel-wide runway plus five generated strips. Each
  frame the head is recycled if it has left the screen, and then every strip
  moves down by `speed * dt`.
- **Collision** (`Collision`). A pure test of the car's x against the first
  two strips, with a 5-pixel tolerance. The second strip is tested only once
  the first strip's top has come down to the car.
- **State machine** (`Game`). It covers the running and paused phases, the
  speed ramp, score and high-score bookkeeping, and restarts.

The modules follow `main.c`. `Geometry` holds the `Road` record and the
screen, car and road constants (main.c:5-15, 41-46). The speed constants
`carSpeedVerticalBase` and `carSpeedHorizontal` (main.c:48, 50) live in `Game`,
next to the code that uses them. `targetFPS` (main.c:44) only configures the
window and is left out. Each other module matches one group of functions.

Outside inputs become parameters. The random draws (`GetRandomValue`) come in
as a `Draws` value, and each function's precondition says every draw lies in
its inclusive range. The clock (`GetTime`), the frame time (`GetFrameTime`)
and the A, D and space keys (`IsKeyDown`, `IsKeyPressed`) come in as a `Frame`.

Modelling choices:

- **Road x coordinates are integers.** The C code keeps them in floats, but
  every value it stores in a road comes from an `int`, so the model uses `int`.
  The car's x moves by ±300·dt each frame and is a `real`.
- **y coordinates, speed and frame time are exact reals.** The `Road` record
  has one `topY` for both top corners, because the code always sets and moves
  the two corners together.
- **C's float-to-int conversions are written out** (`TruncToInt`, which rounds
  toward zero) wherever they can change a value: the generator's half-width
  (main.c:238), the new strip's top (main.c:231, 261), and the scores
  (main.c:127, 443). The position draws also pass float sums to
  `GetRandomValue`'s `int` parameters (main.c:252, 257). Those conversions are
  exact, because every x is a whole number and MIN_GAP_WIDTH is exactly 85, so
  the model uses the integer sums directly.

Points where the code's behaviour is easy to misread; the model follows the code:

- **The new strip's top is truncated.** The generator stores the new top in an
  `int` variable, so the new `topY` is `prev.topY - 266` rounded toward zero.
  This is exact whenever the predecessor's top is a whole number, which is
  always the case during bootstrap (`GeneratedRoadStacksExactly`, `Bootstrap`).
  After the roads have scrolled by fractional amounts, a recycled strip sits
  on its predecessor only to within one pixel. The list invariant
  (`RoadList.Stacked`) states exactly that.
- **The speed can pass 540.** The ramp adds 0.06 whenever the speed is at most
  540, so the speed can reach 540.06 rather than being capped at 540.
- **A running frame checks collision first.** It then moves the car, then
  recycles the head before shifting the list, and ramps the speed last. The
  roads move at the speed from before the ramp.
- **The high score is updated at restart.** It changes in `InitGame`, not when
  the collision happens.
- **An off-screen head is still tested.** The collision test runs before the
  head is recycled, so for one frame a head whose top is already at 800 or more
  is still the near road (`OffScreenHeadScenario`).
- **Equality counts as a collision.** The bound tests use `<=` and `>=`. With
  the near road at [100, 300], the car at x = 280 already hits the near road
  (330 >= 305), whatever the far road is (`RightEdgeScenario`).

## Model

| member | source | states |
|---|---|---|
| Geometry.CreateRoad | main.c:197-208 | a road built from two top corners keeps those corners and gets the standard height of 266 (800 / 3), so its bottom edge is 266 below its top |
| Geometry.TruncToInt | main.c:261 | the C float-to-int conversion lands strictly within one unit of its argument, moves toward zero, and is exact on whole numbers |
| Geometry.TruncHalf | main.c:238 | the half-width of the previous road is half the width rounded toward zero: 2h <= w <= 2h+1 for non-negative widths |
| Generator.CreateRandomRoad | main.c:229-269 | the new road's width is the drawn width, so it lies in [200, 300]; its height is 266; the drawn position is its right edge when placed left and its left edge when placed right, on the matching side of the previous road's midpoint; its top is a whole number, the previous top minus 266 rounded toward zero, so its bottom edge is within one pixel of the previous road's top |
| Generator.PlacementRule | main.c:241-250 | a previous road whose left edge is at most 215 forces the new road to the right; otherwise one whose right edge is within 215 of 1280 forces it left; otherwise the coin decides (1 means left) |
| Generator.DrawRangesNonEmpty | main.c:238-259 | for any previous road at least 200 wide, both position ranges are non-empty and the half-width lies between 100 and width - 100 |
| Generator.SomeDraws | main.c:240-259 | for every previous road at least 200 wide, there is a choice of width, coin and position that lies in the ranges the game draws from |
| Generator.GeneratedRoadOverlaps | main.c:238-259 | for any previous road at least 200 wide, the new road overlaps it by at least MIN_GAP_WIDTH (85), on both the left and right branches |
| Generator.GeneratedRoadStaysOnScreen | main.c:245-259 | from a previous road on screen (0 < left, right < 1280) and 200 to 400 wide, the clamping keeps the new road on screen and 200 to 400 wide |
| Generator.GeneratedRoadStacksExactly | main.c:261-266 | when the previous top is a whole number, the new top is exactly 266 above it, the new bottom edge equals the previous top edge, and the new top is again a whole number |
| RoadList.Runway | main.c:284-302 | the first road spans x 440 to 840, has top -264 (800 - 4*266) and height 1064 (4*266), so its bottom is the screen's bottom edge |
| RoadList.AddRoad | main.c:271-322 | appending grows the list by one and keeps the old roads in order; an empty list receives the runway, otherwise the new last road is generated from the old last road |
| RoadList.RemoveHead | main.c:324-333 | eviction needs two roads, drops exactly the head, and keeps the remaining roads in order |
| RoadList.Shift | main.c:345-354 | every road moves down by the same amount and its left, right and height are unchanged |
| RoadList.UpdateRoadPositions | main.c:335-355 | length is preserved; if the head's top is less than 800 (still on screen) the roads are only shifted; otherwise the head is evicted first and a road generated from the old last road is appended, and only then is everything shifted by speed*dt |
| RoadList.AddRoadKeepsValid | main.c:271-322 | appending to an empty list or to a valid list gives a valid list: the head is the runway or generated, later roads are 200-300 wide with height 266, all are on screen, adjacent roads overlap by at least 85 and are stacked |
| RoadList.RemoveHeadKeepsValid | main.c:324-333 | evicting the head of a valid list of two or more roads leaves a valid list |
| RoadList.ShiftKeepsValid | main.c:348-354 | scrolling by any amount keeps the list valid, since widths, overlaps and vertical gaps are unchanged |
| RoadList.UpdateRoadPositionsKeepsValid | main.c:335-355 | one frame's recycle and scroll keeps a valid list valid and keeps its length |
| RoadList.CanonicalDraws | main.c:118-119 | from an empty or valid list there are always in-range draws for any number of further appends, so generation never meets an empty range |
| RoadList.Fill | main.c:118-119 | appending one road per draw adds exactly that many roads and keeps the existing ones; from an empty list the first road is the runway; every later appended road is CreateRandomRoad of its predecessor with its own in-range draws; a valid or empty start gives a valid list |
| RoadList.FillStacksExactly | main.c:261 | starting from a last road with a whole-number top, the k-th appended road's top is exactly k*266 above it |
| RoadList.Bootstrap | main.c:284-302 | bootstrapping an empty list gives exactly 6 roads (ROAD_COUNT_IN_SCREEN * 2), the runway first, each later road generated from its predecessor by its own draws, a valid list, with road i's top at -264 - 266*i |
| Collision.CheckCarCollision | main.c:433-456 | the car is safe exactly when its span [x, x+50] lies strictly inside the near road widened by 5 on each side and, once the near road's top is at 755 or below, strictly inside the second road widened likewise |
| Collision.EdgeContactCollides | main.c:440 | touching the near road's left or right bound, tolerance included, counts as a collision |
| Collision.FarLeftCollides | main.c:440 | a car more than one pixel left of the near road's left edge minus the tolerance collides |
| Collision.NextRoadIgnoredBeforeThreshold | main.c:449-450 | while the near road's top is above 755 the second road has no influence, and collision means leaving the near road's bounds |
| Collision.OnlyFirstTwoRoadsMatter | main.c:435-436 | lists that agree on their first two roads give the same verdict |
| Collision.SafePositionsAreConvex | main.c:440-455 | the collision-free car positions form an interval |
| Collision.LinkedRoadsAreNavigable | main.c:433-456 | two consecutive roads overlapping by at least 85 always leave a car position safe against both, in particular at the larger of the two left edges |
| Collision.ThresholdScenario | main.c:449-450 | near road [100, 300] and next road [200, 400] with the car at 120: collision holds exactly when the near road's top is at least 755 |
| Collision.RightEdgeScenario | main.c:440 | near road [100, 300] with the car at 280 collides for every next road and every top of the near road |
| Collision.OffScreenHeadScenario | main.c:142-146 | the collision test runs before recycling, so a head whose top (900) is already past the screen's bottom still decides: a car at 615, safely inside the visible next road, collides with the off-screen head at [0, 210] |
| Game.InitGame | main.c:113-129 | six roads are appended after the existing ones (the runway first when the list is empty, otherwise each generated from its predecessor by its draws), the car is placed at x 615, the speed is reset to 240, the game is unpaused, the high score becomes the larger of the last score and the old high score, and the start time in whole seconds is recorded |
| Game.RestartGame | main.c:469-475 | a restart discards the old list and yields six valid roads led by the runway, with tops -264 - 266*i, each later road generated from its predecessor by its own draws; speed 240, car at 615, unpaused, the start time (int)now recorded as lastScore, and high score max(last score, old high score) |
| Game.UpdateCarPosition | main.c:425-431 | with neither key the car stays; A moves it by exactly -300*dt and takes precedence over D; D alone moves it by exactly +300*dt; so for non-negative frame time A moves left and D right; nothing clamps the result |
| Game.RampSpeed | main.c:149-151 | the speed never decreases; at most 540 it grows by exactly 0.06, above 540 it stays; so it never passes 540.06 |
| Game.RunningTick | main.c:140-152 | the collision is judged on the car and roads before the frame's moves; a collision pauses and freezes the elapsed whole seconds as the score; the roads move at the pre-ramp speed; the speed ramps once; the high score is untouched |
| Game.UpdateGame | main.c:131-153 | a paused frame without space changes nothing; with space it restarts unpaused at speed 240 with the high score folded in; a running frame never lowers the speed and pauses exactly on a collision; the high score never decreases |
| Game.StartupEstablishesInvariant | main.c:113-129 | the program's first InitGame, from the static initial values, gives six valid roads led by the runway, speed 240 and high score 0 |
| Game.UpdateGamePreservesInvariant | main.c:131-153 | every frame keeps six valid roads, a speed within [240, 540.06] and a non-negative high score |
| Game.FramesAlwaysFit | main.c:131-153 | in every state satisfying the invariant there are draws that make a frame usable, both for recycling and for restarting |
| Game.CollisionFreezesScore | main.c:440-455 | a collision pauses the game with the score set to the elapsed whole seconds, and later frames without space leave the state unchanged |
| Game.Run | main.c:101-104 | over any sequence of frames the high score never decreases |
| Game.RunKeepsInvariant | main.c:101-104 | the invariant (six valid roads, speed in [240, 540.06]) holds after any number of frames |
| Game.SpeedNeverDropsWithoutRestart | main.c:131-153 | over any sequence of frames without the space key, the speed never decreases |

## Left out

- Drawing and text (`DrawGame`, `DrawRoad`, `DrawAllRoads`, `DrawScore`, `DrawPauseScreen`, `DrawPressButtonScreen`), the `printf` of the speed and `PrintRoadList` are output only. They change no state.
- Window set-up, the frame-rate target and the close signal of the main loop are platform calls. `Game.Run` takes the frames as a finite sequence instead.
- `malloc`/`free` in `CreateRoad`, `CreateRoadNode`, `DeleteRoadNode` and `UnloadGame` is replaced by a value sequence. The unchecked null returns on allocation failure are not modelled. The only effect of `UnloadGame`, emptying the list, is part of `Game.RestartGame`.
- `GetRandomValue`, `GetTime`, `GetFrameTime`, `IsKeyDown` and `IsKeyPressed` are foreign calls, so their results are parameters. raylib's behaviour on a reversed range is not modelled. The preconditions keep every draw inside its range, and `Generator.SomeDraws` and `RoadList.CanonicalDraws` show that a valid choice always exists.
- Float rounding is not modelled. Positions, speed and frame time are exact reals, so the ramp step is exactly 0.06 and scrolling is exact. The explicit conversions to `int` are modelled.
- The live score on screen (`GetTime() - lastScore` in `DrawScore`) is rendering only.

=== FILE: collision.dfy ===
/**
  Collision of the car with the road edges. The car never moves vertically:
  its top edge stays at screenHeight - CAR_HEIGHT, and only the first two
  roads of the list are tested. The test runs before the frame recycles the
  head, so for one frame a head that has already left the screen is still the
  near road.
*/
module Collision {
  import opened Geometry

  /** The car's fixed top edge. */
  const CarTop: int := ScreenHeight - CarHeight

  /** The car's span [x, x + CAR_WIDTH] lies strictly inside the road's span
      widened by the tolerance on both sides. */
  predicate FitsIn(x: real, road: Road)
  {
    (road.left - CollisionTolerance) as real < x && x + CarWidth as real < (road.right + CollisionTolerance) as real
  }

  /** The near road's top, less the tolerance, has come down to the car's top:
      from then on the next road's edges are tested too. */
  predicate NextRoadInReach(near: Road)
  {
    near.topY - CollisionTolerance as real >= CarTop as real
  }

  /** Whether the car at horizontal position x hits the edges of the first two roads. */
  function CheckCarCollision(x: real, list: seq<Road>): (hit: bool)
    requires |list| >= 2
    ensures !hit <==> FitsIn(x, list[0]) && (list[0].topY >= 755.0 ==> FitsIn(x, list[1]))
  {
    var near := list[0];
    var next := list[1];
    if x <= (near.left - CollisionTolerance) as real || x + CarWidth as real >= (near.right + CollisionTolerance) as real then
      true
    else
      NextRoadInReach(near) && (x <= (next.left - CollisionTolerance) as real || x + CarWidth as real >= (next.right + CollisionTolerance) as real)
  }

  /** Touching an edge exactly, with the tolerance, already counts as a collision. */
  lemma EdgeContactCollides(x: real, list: seq<Road>)
    requires |list| >= 2
    requires x == (list[0].left - 5) as real || x + 50.0 == (list[0].right + 5) as real
    ensures CheckCarCollision(x, list)
  {
  }

  /** A car more than a pixel beyond the tolerance left of the near road collides. */
  lemma FarLeftCollides(x: real, list: seq<Road>)
    requires |list| >= 2
    requires x < (list[0].left - CollisionTolerance - 1) as real
    ensures CheckCarCollision(x, list)
  {
  }

  /** While the near road's top is above 755 the second road plays no part. */
  lemma NextRoadIgnoredBeforeThreshold(x: real, a: seq<Road>, b: seq<Road>)
    requires |a| >= 2 && |b| >= 2
    requires a[0] == b[0]
    requires a[0].topY < 755.0
    ensures CheckCarCollision(x, a) == CheckCarCollision(x, b)
    ensures CheckCarCollision(x, a) <==> !FitsIn(x, a[0])
  {
  }

  /** Only the first two roads of the list are consulted. */
  lemma OnlyFirstTwoRoadsMatter(x: real, a: seq<Road>, b: seq<Road>)
    requires |a| >= 2 && |b| >= 2
    requires a[0] == b[0] && a[1] == b[1]
    ensures CheckCarCollision(x, a) == CheckCarCollision(x, b)
  {
  }

  /** The collision-free positions form an interval: a car between two safe
      positions is safe too. */
  lemma SafePositionsAreConvex(x1: real, x2: real, x: real, list: seq<Road>)
    requires |list| >= 2
    requires !CheckCarCollision(x1, list) && !CheckCarCollision(x2, list)
    requires x1 <= x <= x2
    ensures !CheckCarCollision(x, list)
  {
  }

  /** Two roads overlapping by at least MIN_GAP_WIDTH leave a position that is
      safe against both, whatever the threshold: the gap is navigable. */
  lemma LinkedRoadsAreNavigable(list: seq<Road>)
    requires |list| >= 2
    requires Overlap(list[0], list[1]) >= MinGapWidth
    ensures exists x: real :: FitsIn(x, list[0]) && FitsIn(x, list[1])
    ensures !CheckCarCollision(Max(list[0].left, list[1].left) as real, list)
  {
    var x := Max(list[0].left, list[1].left) as real;
    assert FitsIn(x, list[0]) && FitsIn(x, list[1]);
  }

  /** Near road [100, 300], next road [200, 400], car at x = 120: inside the near
      road but within the tolerance of the next road's left edge, so the
      collision appears exactly when the near road's top reaches 755. */
  lemma ThresholdScenario(t: real, u: real)
    ensures CheckCarCollision(120.0, [Road(100, 300, t, 266), Road(200, 400, u, 266)]) <==> t >= 755.0
  {
  }

  /** Near road [100, 300], car at x = 280: the car's right side (330) reaches
      the near road's right edge plus tolerance (305), so it collides whatever
      the near road's vertical position and whatever the next road. */
  lemma RightEdgeScenario(t: real, next: Road)
    ensures CheckCarCollision(280.0, [Road(100, 300, t, 266), next])
  {
  }

  /** A head at [0, 210] whose top (900) is already below the screen is still
      the near road: the car at x = 615, well inside the visible next road
      [440, 840], collides with it. */
  lemma OffScreenHeadScenario(u: real)
    ensures CheckCarCollision(615.0, [Road(0, 210, 900.0, 266), Road(440, 840, u, 266)])
    ensures FitsIn(615.0, Road(440, 840, u, 266))
  {
  }
}

=== FILE: game.dfy ===
/**
  The per-frame game state machine: a running phase that checks for a
  collision, moves the car, recycles and scrolls the roads and ramps the
  speed, and a paused phase that waits for the restart key.

  The platform's clock, frame timer, keyboard and random source are read once
  per frame; their values arrive in a `Frame`.
*/
module Game {
  import opened Geometry
  import opened Generator
  import opened RoadList
  import opened Collision

  const CarSpeedVerticalBase: real := 240.0
  const CarSpeedHorizontal: int := 300

  /** The speed ramp steps only while the speed is at most SpeedLimit, so the
      speed can end up one step above it. */
  const SpeedLimit: real := 540.0
  const SpeedStep: real := 0.06

  /** The car's starting x: screenWidth / 2 - CAR_WIDTH / 2 in integer arithmetic. */
  const CarStartX: int := ScreenWidth / 2 - CarWidth / 2

  /** The game's global variables. While running, `lastScore` holds the start
      time in whole seconds; after a collision it holds the score. */
  datatype GameState = GameState(
    roads: seq<Road>,
    carX: real,
    speed: real,
    lastScore: int,
    highScore: int,
    paused: bool)

  /** Everything one frame reads from the platform: the frame time, the clock,
      the A, D and space keys, the draws for a recycled road and the draws for
      a fresh road list after a restart. */
  datatype Frame = Frame(
    dt: real,
    now: real,
    keyA: bool,
    keyD: bool,
    space: bool,
    recycleDraws: Draws,
    restartDraws: seq<Draws>)

  /** The variables' static initial values, before the first InitGame. */
  function StartupState(): GameState
  {
    GameState([], 0.0, CarSpeedVerticalBase, 0, 0, false)
  }

  /** Appends ROAD_COUNT_IN_SCREEN * 2 roads, puts the car at its start,
      resets the speed, folds the last score into the high score and records
      the start time. */
  function InitGame(s: GameState, now: real, draws: seq<Draws>): (t: GameState)
    requires |draws| == RoadListLength
    requires DrawsFit(s.roads, draws)
    ensures |t.roads| == |s.roads| + 6 && t.roads[..|s.roads|] == s.roads
    ensures t.carX == 615.0 && t.speed == 240.0 && !t.paused
    ensures t.highScore == Max(s.lastScore, s.highScore)
    ensures t.lastScore == TruncToInt(now)
    ensures s.roads == [] ==> t.roads[0] == Runway()
    ensures forall j :: 0 <= j < |draws| && 0 < |s.roads| + j ==>
              && ValidDraws(t.roads[|s.roads| + j - 1], draws[j])
              && t.roads[|s.roads| + j] == CreateRandomRoad(t.roads[|s.roads| + j - 1], draws[j])
  {
    GameState(
      Fill(s.roads, draws),
      CarStartX as real,
      CarSpeedVerticalBase,
      TruncToInt(now),
      if s.lastScore > s.highScore then s.lastScore else s.highScore,
      false)
  }

  /** Discards the road list and starts a new game, recording the new start time. */
  function RestartGame(s: GameState, now: real, draws: seq<Draws>): (t: GameState)
    requires |draws| == RoadListLength
    requires DrawsFit([], draws)
    ensures !t.paused && t.speed == 240.0 && t.carX == 615.0
    ensures t.highScore == Max(s.lastScore, s.highScore)
    ensures t.lastScore == TruncToInt(now)
    ensures |t.roads| == 6 && t.roads[0] == Runway() && ValidRoadList(t.roads)
    ensures forall i :: 0 <= i < 6 ==> t.roads[i].topY == (-264 - 266 * i) as real
    ensures forall i :: 0 < i < 6 ==>
              && ValidDraws(t.roads[i - 1], draws[i])
              && t.roads[i] == CreateRandomRoad(t.roads[i - 1], draws[i])
  {
    Bootstrap(draws);
    InitGame(s.(roads := []), now, draws)
  }

  /** Key A moves the car left, otherwise key D moves it right, by
      carSpeedHorizontal * dt; nothing keeps the car on screen. */
  function UpdateCarPosition(x: real, keyA: bool, keyD: bool, dt: real): (x': real)
    ensures !keyA && !keyD ==> x' == x
    ensures keyA ==> x' == x - 300.0 * dt
    ensures !keyA && keyD ==> x' == x + 300.0 * dt
    ensures keyA ==> (x' <= x <==> 0.0 <= dt)
    ensures !keyA && keyD ==> (x <= x' <==> 0.0 <= dt)
  {
    if keyA then x - CarSpeedHorizontal as real * dt
    else if keyD then x + CarSpeedHorizontal as real * dt
    else x
  }

  /** One step of the speed ramp: never decreases and never passes 540.06. */
  function RampSpeed(speed: real): (v: real)
    ensures speed <= v
    ensures speed <= 540.0 ==> v == speed + 0.06
    ensures v != speed <==> speed <= 540.0
    ensures speed <= 540.06 ==> v <= 540.06
  {
    if speed <= SpeedLimit then speed + SpeedStep else speed
  }

  /** A running frame, in the game's order: the collision is judged on the
      positions before this frame's moves, then the car moves, the roads are
      recycled and scrolled at the current speed, and only then does the speed ramp. */
  function RunningTick(s: GameState, f: Frame): (t: GameState)
    requires |s.roads| >= 2
    requires NeedsRecycle(s.roads) ==> ValidDraws(Last(s.roads), f.recycleDraws)
    ensures t.paused <==> s.paused || CheckCarCollision(s.carX, s.roads)
    ensures CheckCarCollision(s.carX, s.roads) ==> t.lastScore == TruncToInt(f.now - s.lastScore as real)
    ensures !CheckCarCollision(s.carX, s.roads) ==> t.lastScore == s.lastScore
    ensures t.carX == UpdateCarPosition(s.carX, f.keyA, f.keyD, f.dt)
    ensures t.roads == UpdateRoadPositions(s.roads, s.speed, f.dt, f.recycleDraws)
    ensures t.speed == RampSpeed(s.speed) && t.highScore == s.highScore
  {
    var hit := CheckCarCollision(s.carX, s.roads);
    var paused := s.paused || hit;
    var lastScore := if hit then TruncToInt(f.now - s.lastScore as real) else s.lastScore;
    var carX := UpdateCarPosition(s.carX, f.keyA, f.keyD, f.dt);
    var roads := UpdateRoadPositions(s.roads, s.speed, f.dt, f.recycleDraws);
    GameState(roads, carX, RampSpeed(s.speed), lastScore, s.highScore, paused)
  }

  /** The frame's inputs are usable in state s: a restart has a full set of
      draws for a new list, a running frame has a list to check and draws
      for the road it may recycle. */
  predicate FrameFits(s: GameState, f: Frame)
  {
    if s.paused then
      f.space ==> |f.restartDraws| == RoadListLength && DrawsFit([], f.restartDraws)
    else
      |s.roads| >= 2 && (NeedsRecycle(s.roads) ==> ValidDraws(Last(s.roads), f.recycleDraws))
  }

  /** One frame of the game. */
  function UpdateGame(s: GameState, f: Frame): (t: GameState)
    requires FrameFits(s, f)
    ensures s.paused && !f.space ==> t == s
    ensures s.paused && f.space ==> !t.paused && t.speed == 240.0 && t.highScore == Max(s.lastScore, s.highScore)
    ensures !s.paused ==> s.speed <= t.speed && t.highScore == s.highScore
    ensures !s.paused ==> (t.paused <==> CheckCarCollision(s.carX, s.roads))
    ensures s.highScore <= t.highScore
  {
    if s.paused then
      if f.space then RestartGame(s, f.now, f.restartDraws) else s
    else
      RunningTick(s, f)
  }

  /** The state invariant between frames. */
  predicate GameInv(s: GameState)
  {
    && |s.roads| == RoadListLength
    && ValidRoadList(s.roads)
    && CarSpeedVerticalBase <= s.speed <= SpeedLimit + SpeedStep
    && 0 <= s.highScore
  }

  /** The program's first InitGame establishes the invariant. */
  lemma StartupEstablishesInvariant(now: real, draws: seq<Draws>)
    requires |draws| == RoadListLength
    requires DrawsFit([], draws)
    ensures GameInv(InitGame(StartupState(), now, draws))
    ensures InitGame(StartupState(), now, draws).roads[0] == Runway()
  {
    Bootstrap(draws);
  }

  /** Every frame keeps the invariant: six valid roads, speed within
      [240, 540.06], a non-negative high score. */
  lemma UpdateGamePreservesInvariant(s: GameState, f: Frame)
    requires GameInv(s)
    requires FrameFits(s, f)
    ensures GameInv(UpdateGame(s, f))
  {
    if !s.paused {
      UpdateRoadPositionsKeepsValid(s.roads, s.speed, f.dt, f.recycleDraws);
    }
  }

  /** In any valid running state, some draws fit a frame: the random source
      can always serve the generator. */
  lemma FramesAlwaysFit(s: GameState, f: Frame)
    requires GameInv(s)
    ensures FrameFits(s, f.(recycleDraws := SomeDraws(Last(s.roads)), restartDraws := CanonicalDraws([], RoadListLength)))
  {
    ValidRoadListPredecessorOk(s.roads, |s.roads| - 1);
  }

  /** A collision pauses the game and freezes the elapsed whole seconds as the score;
      later frames without the space key leave that state untouched. */
  lemma CollisionFreezesScore(s: GameState, f: Frame, g: Frame)
    requires !s.paused
    requires FrameFits(s, f)
    requires CheckCarCollision(s.carX, s.roads)
    requires !g.space
    ensures UpdateGame(s, f).paused
    ensures UpdateGame(s, f).lastScore == TruncToInt(f.now - s.lastScore as real)
    ensures UpdateGame(UpdateGame(s, f), g) == UpdateGame(s, f)
  {
  }

  /** The frames of a run fit the states they meet. */
  predicate RunFits(s: GameState, frames: seq<Frame>)
    decreases |frames|
  {
    |frames| == 0 || (FrameFits(s, frames[0]) && RunFits(UpdateGame(s, frames[0]), frames[1..]))
  }

  /** The state after a sequence of frames. */
  function Run(s: GameState, frames: seq<Frame>): (t: GameState)
    requires RunFits(s, frames)
    ensures s.highScore <= t.highScore
    decreases |frames|
  {
    if |frames| == 0 then s else Run(UpdateGame(s, frames[0]), frames[1..])
  }

  /** The invariant holds after any number of frames. */
  lemma {:induction false} RunKeepsInvariant(s: GameState, frames: seq<Frame>)
    requires GameInv(s)
    requires RunFits(s, frames)
    ensures GameInv(Run(s, frames))
    decreases |frames|
  {
    if |frames| > 0 {
      UpdateGamePreservesInvariant(s, frames[0]);
      RunKeepsInvariant(UpdateGame(s, frames[0]), frames[1..]);
    }
  }

  /** Without a restart the speed never drops, however many frames pass. */
  lemma {:induction false} SpeedNeverDropsWithoutRestart(s: GameState, frames: seq<Frame>)
    requires RunFits(s, frames)
    requires forall i :: 0 <= i < |frames| ==> !frames[i].space
    ensures s.speed <= Run(s, frames).speed
    decreases |frames|
  {
    if |frames| > 0 {
      SpeedNeverDropsWithoutRestart(UpdateGame(s, frames[0]), frames[1..]);
    }
  }
}

=== FILE: generator.dfy ===
/**
  The road generator: the next road is built from the previous one and three
  random draws (a width, a left/right coin and a position), with the coin
  overridden near either screen edge. The draws are parameters here, and the
  precondition says each lies in the range the game draws it from.
*/
module Generator {
  import opened Geometry

  /** The values drawn from the random source for one new road. */
  datatype Draws = Draws(width: int, coin: int, pos: int)

  /** MAX_ROAD_WIDTH - MIN_GAP_WIDTH: a predecessor closer than this to a screen
      edge leaves too little room to place the new road on that side. */
  const ClampMargin: int := MaxRoadWidth - MinGapWidth

  predicate ForcedRight(prev: Road) { prev.left <= ClampMargin }
  predicate ForcedLeft(prev: Road) { ScreenWidth - prev.right <= ClampMargin }

  /** Whether the new road is placed to the left of `prev`; the left-edge test is made first. */
  function PlaceLeft(prev: Road, coin: int): bool
  {
    if ForcedRight(prev) then false
    else if ForcedLeft(prev) then true
    else coin != 0
  }

  function HalfWidth(prev: Road): int { TruncHalf(prev.Width()) }

  /** Bounds of the position draw: the new right edge when placing left,
      the new left edge when placing right. */
  function PosLow(prev: Road, onLeft: bool): int
  {
    if onLeft then prev.left + MinGapWidth else prev.left + HalfWidth(prev)
  }

  function PosHigh(prev: Road, onLeft: bool): int
  {
    if onLeft then prev.left + HalfWidth(prev) else prev.right - MinGapWidth
  }

  /** Each draw lies in the inclusive range the game draws it from. */
  predicate ValidDraws(prev: Road, d: Draws)
  {
    && MinRoadWidth <= d.width <= MaxRoadWidth
    && 0 <= d.coin <= 1
    && PosLow(prev, PlaceLeft(prev, d.coin)) <= d.pos <= PosHigh(prev, PlaceLeft(prev, d.coin))
  }

  /** A road the generator may extend: on screen, and no narrower than a
      generated road nor wider than the runway. */
  predicate PredecessorOk(prev: Road)
  {
    OnScreen(prev) && MinRoadWidth <= prev.Width() <= 2 * MinRoadWidth
  }

  function CreateRandomRoad(prev: Road, d: Draws): (r: Road)
    requires ValidDraws(prev, d)
    ensures r.Width() == d.width && 200 <= r.Width() <= 300
    ensures r.height == RoadHeight
    ensures PlaceLeft(prev, d.coin) ==> r.right == d.pos && r.right <= prev.left + HalfWidth(prev)
    ensures !PlaceLeft(prev, d.coin) ==> r.left == d.pos && prev.left + HalfWidth(prev) <= r.left
    ensures r.Bottom() - 1.0 < prev.topY < r.Bottom() + 1.0
    ensures Integral(r.topY)
    ensures prev.topY <= 266.0 ==> prev.topY - 266.0 <= r.topY
    ensures 266.0 <= prev.topY ==> r.topY <= prev.topY - 266.0
  {
    var top := TruncToInt(prev.topY - RoadHeight as real) as real;
    assert Integral(top);
    if PlaceLeft(prev, d.coin) then
      CreateRoad(d.pos - d.width, d.pos, top)
    else
      CreateRoad(d.pos, d.pos + d.width, top)
  }

  /** Near the left edge the road always goes right; otherwise near the right
      edge it always goes left; otherwise the coin decides. */
  lemma PlacementRule(prev: Road, coin: int)
    requires 0 <= coin <= 1
    ensures prev.left <= 215 ==> !PlaceLeft(prev, coin)
    ensures 215 < prev.left && 1280 - prev.right <= 215 ==> PlaceLeft(prev, coin)
    ensures 215 < prev.left && 215 < 1280 - prev.right ==> (PlaceLeft(prev, coin) <==> coin == 1)
  {
  }

  /** For any predecessor at least as wide as a generated road, both ranges
      the position may be drawn from are non-empty. */
  lemma DrawRangesNonEmpty(prev: Road)
    requires MinRoadWidth <= prev.Width()
    ensures PosLow(prev, true) <= PosHigh(prev, true)
    ensures PosLow(prev, false) <= PosHigh(prev, false)
    ensures 100 <= HalfWidth(prev) <= prev.Width() - 100
  {
  }

  /** A concrete in-range choice of draws, witnessing that the generator can
      always proceed from a well-placed predecessor. */
  function SomeDraws(prev: Road): (d: Draws)
    requires MinRoadWidth <= prev.Width()
    ensures ValidDraws(prev, d)
  {
    DrawRangesNonEmpty(prev);
    Draws(MinRoadWidth, 0, PosLow(prev, PlaceLeft(prev, 0)))
  }

  /** The new road shares at least MIN_GAP_WIDTH pixels with any predecessor
      at least as wide as a generated road, on either side. */
  lemma GeneratedRoadOverlaps(prev: Road, d: Draws)
    requires MinRoadWidth <= prev.Width()
    requires ValidDraws(prev, d)
    ensures Overlap(prev, CreateRandomRoad(prev, d)) >= MinGapWidth
  {
    var r := CreateRandomRoad(prev, d);
    DrawRangesNonEmpty(prev);
    if PlaceLeft(prev, d.coin) {
      assert Overlap(prev, r) == Min(r.right - prev.left, d.width);
    } else {
      assert Overlap(prev, r) == Min(prev.right - r.left, d.width);
    }
  }

  /** From a predecessor on screen and no wider than the runway, the new road
      is again on screen and within those widths: the clamping keeps every
      road inside the 1280-pixel screen. */
  lemma GeneratedRoadStaysOnScreen(prev: Road, d: Draws)
    requires PredecessorOk(prev)
    requires ValidDraws(prev, d)
    ensures PredecessorOk(CreateRandomRoad(prev, d))
  {
    DrawRangesNonEmpty(prev);
    if PlaceLeft(prev, d.coin) {
      assert 215 < prev.left;
    } else {
      assert prev.left <= 215 || prev.right < 1065;
    }
  }

  /** From a predecessor whose top is a whole number of pixels, the new road
      sits exactly on top of it: its bottom edge is the predecessor's top edge. */
  lemma GeneratedRoadStacksExactly(prev: Road, d: Draws)
    requires ValidDraws(prev, d)
    requires Integral(prev.topY)
    ensures CreateRandomRoad(prev, d).topY == prev.topY - 266.0
    ensures CreateRandomRoad(prev, d).Bottom() == prev.topY
    ensures Integral(CreateRandomRoad(prev, d).topY)
  {
    var x := prev.topY - RoadHeight as real;
    assert x == (prev.topY.Floor - RoadHeight) as real;
  }
}

=== FILE: geometry.dfy ===
/**
  Screen and car dimensions, the road record, and the integer conversions the
  game's C arithmetic performs implicitly.

  Horizontal road coordinates are whole pixels: every road x the game stores
  comes from an `int`. Vertical positions move by fractional amounts each frame and
  are modelled as exact reals.
*/
module Geometry {

  const CarWidth: int := 50
  const CarHeight: int := 50

  /** Narrowest and widest road the generator may draw. */
  const MinRoadWidth: int := CarWidth * 4
  const MaxRoadWidth: int := CarWidth * 6

  /** Least overlap of two consecutive roads: CarWidth * 1.7, which is exactly 85. */
  const MinGapWidth: int := 85

  /** Roads visible at once; the list holds twice as many. */
  const RoadCountInScreen: int := 3

  /** Pixels of slack allowed between the car and a road edge. */
  const CollisionTolerance: int := 5

  const ScreenWidth: int := 1280
  const ScreenHeight: int := 800

  /** Integer division: 800 / 3 is 266. */
  const RoadHeight: int := ScreenHeight / RoadCountInScreen

  function Min(a: int, b: int): int { if a <= b then a else b }
  function Max(a: int, b: int): int { if a <= b then b else a }

  /** One strip of road. Both top corners share `topY`; the strip extends
      `height` pixels downward from there. */
  datatype Road = Road(left: int, right: int, topY: real, height: int)
  {
    function Width(): int { right - left }
    function Bottom(): real { topY + height as real }
  }

  /** Every road built through the common constructor has the standard height. */
  function CreateRoad(left: int, right: int, topY: real): (r: Road)
    ensures r.left == left && r.right == right && r.topY == topY
    ensures r.height == 266
    ensures r.Bottom() == topY + 266.0
  {
    Road(left, right, topY, RoadHeight)
  }

  /** Horizontal overlap of two roads' spans (negative when they are apart). */
  function Overlap(a: Road, b: Road): int
  {
    Min(a.right, b.right) - Max(a.left, b.left)
  }

  /** Both side edges lie strictly inside the screen. */
  predicate OnScreen(r: Road)
  {
    0 < r.left && r.right < ScreenWidth
  }

  predicate Integral(x: real)
  {
    x == x.Floor as real
  }

  /** C's conversion of a floating value to `int`: truncation toward zero. */
  function TruncToInt(x: real): (n: int)
    ensures x - 1.0 < n as real < x + 1.0
    ensures 0.0 <= x ==> n as real <= x
    ensures x <= 0.0 ==> x <= n as real
    ensures Integral(x) ==> n as real == x
  {
    if x >= 0.0 then
      var f := x.Floor;
      assert f as real <= x < f as real + 1.0;
      f
    else
      var f := (-x).Floor;
      assert f as real <= -x < f as real + 1.0;
      assert Integral(x) ==> -x == (-x.Floor) as real;
      -f
  }

  /** `(int)(d / 2)` on a float: half of d, rounded toward zero. */
  function TruncHalf(d: int): (h: int)
    ensures 0 <= d ==> 2 * h <= d <= 2 * h + 1
    ensures d <= 0 ==> 2 * h - 1 <= d <= 2 * h
  {
    TruncToInt(d as real / 2.0)
  }
}

=== FILE: road_list.dfy ===
/**
  The road list: the game's doubly linked list of roads, modelled as a
  sequence whose index 0 is the head (the oldest, bottom-most road) and whose
  last element is the newest, top-most road.
*/
module RoadList {
  import opened Geometry
  import opened Generator

  /** ROAD_COUNT_IN_SCREEN * 2 roads are kept at all times. */
  const RoadListLength: int := RoadCountInScreen * 2

  /** The first road of a game: centred, 400 pixels wide and four road heights tall. */
  function Runway(): (r: Road)
    ensures r.left == 440 && r.right == 840
    ensures r.topY == -264.0 && r.height == 1064
    ensures r.Bottom() == 800.0
  {
    var top := (ScreenHeight - RoadHeight * 4) as real;
    CreateRoad(ScreenWidth / 2 - MinRoadWidth, ScreenWidth / 2 + MinRoadWidth, top).(height := RoadHeight * 4)
  }

  function Last(list: seq<Road>): Road
    requires |list| > 0
  {
    list[|list| - 1]
  }

  /** The draws are usable for appending to `list` (none is consumed when it is empty). */
  predicate CanAdd(list: seq<Road>, d: Draws)
  {
    |list| > 0 ==> ValidDraws(Last(list), d)
  }

  /** Appends one road: the runway when the list is empty, otherwise a road
      generated from the current last road. */
  function AddRoad(list: seq<Road>, d: Draws): (r: seq<Road>)
    requires CanAdd(list, d)
    ensures |r| == |list| + 1
    ensures r[..|list|] == list
    ensures |list| == 0 ==> r[0] == Runway()
    ensures |list| > 0 ==> Last(r) == CreateRandomRoad(Last(list), d)
  {
    if |list| == 0 then [Runway()] else list + [CreateRandomRoad(Last(list), d)]
  }

  /** Evicts the head; the game dereferences the head's successor, so two roads are needed. */
  function RemoveHead(list: seq<Road>): (r: seq<Road>)
    requires |list| >= 2
    ensures |r| == |list| - 1
    ensures forall i :: 0 <= i < |r| ==> r[i] == list[i + 1]
  {
    list[1..]
  }

  /** Moves every road down by `delta`, changing nothing else. */
  function Shift(list: seq<Road>, delta: real): (r: seq<Road>)
    ensures |r| == |list|
    ensures forall i :: 0 <= i < |r| ==>
              && r[i].left == list[i].left
              && r[i].right == list[i].right
              && r[i].height == list[i].height
              && r[i].topY == list[i].topY + delta
  {
    seq(|list|, i requires 0 <= i < |list| => list[i].(topY := list[i].topY + delta))
  }

  /** The head's top has reached the bottom of the screen: it is no longer visible. */
  predicate NeedsRecycle(list: seq<Road>)
    requires |list| > 0
  {
    list[0].topY >= ScreenHeight as real
  }

  /** Per-frame road update: recycle the head if it has left the screen, then
      move every road down by speed * dt. */
  function UpdateRoadPositions(list: seq<Road>, speed: real, dt: real, d: Draws): (r: seq<Road>)
    requires |list| > 0
    requires NeedsRecycle(list) ==> |list| >= 2 && ValidDraws(Last(list), d)
    ensures |r| == |list|
    ensures !NeedsRecycle(list) ==> r == Shift(list, speed * dt)
    ensures NeedsRecycle(list) ==>
              && (forall i :: 0 <= i < |r| - 1 ==> r[i] == list[i + 1].(topY := list[i + 1].topY + speed * dt))
              && Last(r) == CreateRandomRoad(Last(list), d).(topY := CreateRandomRoad(Last(list), d).topY + speed * dt)
  {
    var recycled := if NeedsRecycle(list) then AddRoad(RemoveHead(list), d) else list;
    Shift(recycled, speed * dt)
  }

  /** A road made by the generator: standard height and a drawn width. */
  predicate IsGenerated(r: Road)
  {
    MinRoadWidth <= r.Width() <= MaxRoadWidth && r.height == RoadHeight
  }

  predicate IsRunwayShaped(r: Road)
  {
    r.left == Runway().left && r.right == Runway().right && r.height == Runway().height
  }

  /** `upper` sits on top of `lower`, to within the pixel lost when the C code
      stores the new top in an `int`. */
  predicate Stacked(lower: Road, upper: Road)
  {
    upper.Bottom() - 1.0 < lower.topY < upper.Bottom() + 1.0
  }

  /** Two consecutive roads leave a navigable gap and are vertically stacked. */
  predicate Linked(lower: Road, upper: Road)
  {
    Overlap(lower, upper) >= MinGapWidth && Stacked(lower, upper)
  }

  /** The list invariant: the head is the runway or a generated road, every
      later road is generated, all lie inside the screen, and every adjacent
      pair is linked. */
  predicate ValidRoadList(list: seq<Road>)
  {
    && |list| > 0
    && (IsRunwayShaped(list[0]) || IsGenerated(list[0]))
    && (forall i :: 0 < i < |list| ==> IsGenerated(list[i]))
    && (forall i :: 0 <= i < |list| ==> OnScreen(list[i]))
    && (forall i :: 0 <= i < |list| - 1 ==> Linked(list[i], list[i + 1]))
  }

  lemma ValidRoadListPredecessorOk(list: seq<Road>, i: int)
    requires ValidRoadList(list)
    requires 0 <= i < |list|
    ensures PredecessorOk(list[i])
  {
  }

  /** Appending keeps the invariant: from an empty list the runway alone is
      valid; otherwise the generated road is linked to the old last road. */
  lemma AddRoadKeepsValid(list: seq<Road>, d: Draws)
    requires CanAdd(list, d)
    ensures list == [] || ValidRoadList(list) ==> ValidRoadList(AddRoad(list, d))
  {
    var r := AddRoad(list, d);
    if |list| > 0 && ValidRoadList(list) {
      ValidRoadListPredecessorOk(list, |list| - 1);
      GeneratedRoadOverlaps(Last(list), d);
      GeneratedRoadStaysOnScreen(Last(list), d);
      assert r[|list| - 1] == list[|list| - 1];
      forall i | 0 <= i < |r| - 1
        ensures Linked(r[i], r[i + 1])
      {
        if i < |list| - 1 {
          assert r[i] == list[i] && r[i + 1] == list[i + 1];
        }
      }
    }
  }

  lemma RemoveHeadKeepsValid(list: seq<Road>)
    requires ValidRoadList(list)
    requires |list| >= 2
    ensures ValidRoadList(RemoveHead(list))
  {
  }

  lemma ShiftKeepsValid(list: seq<Road>, delta: real)
    requires ValidRoadList(list)
    ensures ValidRoadList(Shift(list, delta))
  {
    var r := Shift(list, delta);
    forall i | 0 <= i < |r| - 1
      ensures Linked(r[i], r[i + 1])
    {
      assert Linked(list[i], list[i + 1]);
    }
  }

  /** One frame of road movement keeps the list valid and its length unchanged. */
  lemma UpdateRoadPositionsKeepsValid(list: seq<Road>, speed: real, dt: real, d: Draws)
    requires ValidRoadList(list)
    requires NeedsRecycle(list) ==> |list| >= 2 && ValidDraws(Last(list), d)
    ensures ValidRoadList(UpdateRoadPositions(list, speed, dt, d))
    ensures |UpdateRoadPositions(list, speed, dt, d)| == |list|
  {
    if NeedsRecycle(list) {
      var rest := RemoveHead(list);
      RemoveHeadKeepsValid(list);
      assert Last(rest) == Last(list);
      AddRoadKeepsValid(rest, d);
      ShiftKeepsValid(AddRoad(rest, d), speed * dt);
    } else {
      ShiftKeepsValid(list, speed * dt);
    }
  }

  /** Draws that can be consumed one per append, starting from `list`. */
  predicate DrawsFit(list: seq<Road>, draws: seq<Draws>)
    decreases |draws|
  {
    |draws| == 0 || (CanAdd(list, draws[0]) && DrawsFit(AddRoad(list, draws[0]), draws[1..]))
  }

  /** Appends one road per entry of `draws`, as InitGame's loop does. */
  function Fill(list: seq<Road>, draws: seq<Draws>): (r: seq<Road>)
    requires DrawsFit(list, draws)
    ensures |r| == |list| + |draws|
    ensures r[..|list|] == list
    ensures (list == [] || ValidRoadList(list)) && |draws| > 0 ==> ValidRoadList(r)
    ensures list == [] && |draws| > 0 ==> r[0] == Runway()
    ensures forall j :: 0 <= j < |draws| && 0 < |list| + j ==>
              && ValidDraws(r[|list| + j - 1], draws[j])
              && r[|list| + j] == CreateRandomRoad(r[|list| + j - 1], draws[j])
    decreases |draws|
  {
    if |draws| == 0 then list
    else
      var next := AddRoad(list, draws[0]);
      AddRoadKeepsValid(list, draws[0]);
      var r := Fill(next, draws[1..]);
      assert r[..|next|] == next;
      assert r[..|list|] == next[..|list|];
      assert |list| > 0 ==> r[|list| - 1] == Last(list) && r[|list|] == Last(next);
      assert forall j :: 1 <= j < |draws| ==> draws[j] == draws[1..][j - 1];
      r
  }

  /** A concrete in-range choice of n successive draws from `list`: the
      generator can always append as many roads as asked. */
  function CanonicalDraws(list: seq<Road>, n: nat): (draws: seq<Draws>)
    requires list == [] || ValidRoadList(list)
    ensures |draws| == n
    ensures DrawsFit(list, draws)
    decreases n
  {
    if n == 0 then []
    else
      var d := if list == [] then Draws(MinRoadWidth, 0, 0) else SomeDraws(Last(list));
      AddRoadKeepsValid(list, d);
      var rest := CanonicalDraws(AddRoad(list, d), n - 1);
      assert ([d] + rest)[1..] == rest;
      [d] + rest
  }

  /** Filling from a list whose last top is a whole number stacks every new
      road exactly RoadHeight above the one before it. */
  lemma {:induction false} FillStacksExactly(list: seq<Road>, draws: seq<Draws>)
    requires |list| > 0
    requires Integral(Last(list).topY)
    requires DrawsFit(list, draws)
    ensures forall i :: |list| <= i < |list| + |draws| ==>
              Fill(list, draws)[i].topY == Last(list).topY - ((i - |list| + 1) * 266) as real
    decreases |draws|
  {
    if |draws| > 0 {
      var next := AddRoad(list, draws[0]);
      GeneratedRoadStacksExactly(Last(list), draws[0]);
      FillStacksExactly(next, draws[1..]);
      var r := Fill(list, draws);
      assert r == Fill(next, draws[1..]);
      assert r[..|next|] == next;
      assert r[|list|] == Last(next);
    }
  }

  /** Bootstrapping an empty list yields exactly ROAD_COUNT_IN_SCREEN * 2 valid
      roads: the runway at the head, then roads stacked exactly 266 pixels
      apart, each generated from its predecessor by its own draws. */
  lemma Bootstrap(draws: seq<Draws>)
    requires |draws| == RoadListLength
    requires DrawsFit([], draws)
    ensures |Fill([], draws)| == 6
    ensures Fill([], draws)[0] == Runway()
    ensures ValidRoadList(Fill([], draws))
    ensures forall i :: 0 <= i < 6 ==> Fill([], draws)[i].topY == (-264 - 266 * i) as real
    ensures forall i :: 0 < i < 6 ==> Fill([], draws)[i] == CreateRandomRoad(Fill([], draws)[i - 1], draws[i])
  {
    var one := AddRoad([], draws[0]);
    assert Fill([], draws) == Fill(one, draws[1..]);
    FillStacksExactly(one, draws[1..]);
  }
}
